=== FILE: README.md ===
# A verified model of a small PHP dependency-injection container

This project models the resolution engine of the `Container` class in
`src/Container.php` in Dafny, and proves properties of it. The container is
built from service definitions and a parameter tree. Its operations are:

- `get(name)` builds a service lazily and caches it;
- `has(name)` tells whether a service is defined;
- `getParameter(path)` reads a dotted path such as `db.host`;
- `hasParameter(path)` tells whether that read succeeds.

Building a service goes through these steps:

1. The definition is checked: it must be an array with a `class`, the class
   must exist, and the definition must not carry a `lock`.
2. A `lock` entry is written into the definition. This is how dependency
   cycles are caught.
3. The constructor arguments are resolved. A `ServiceReference` becomes
   `get(name)`, a `ParameterReference` becomes `getParameter(path)`, and any
   other value is passed through unchanged.
4. The class is instantiated.
5. The post-construction `calls` run in their declared order.

The model is written in functional state-passing style. Every operation
takes a `Container.State` and returns a `Container.Run`: a result together
with the next state. The state holds:

- the definitions, with the locks written into them;
- the parameters;
- the instance cache;
- a construction log.

An instance's identity is its position in the construction log. As in the
source, a failure keeps every change made before it: locks that were set
and dependencies that were built and cached.

`Get`, `CreateService`, `ResolveArguments` and `InitializeService` are
mutually recursive, as in the source. Dafny accepts them as total
functions. The termination measure is the set of definitions that carry no
lock, which shrinks each time a build starts. So no request can recurse
forever, whatever the definitions are.

PHP details the model reproduces:

- `isset` treats a key bound to `null` as absent. This applies to `has`
  and to every step of a parameter path.
- A canonical decimal path segment such as `1` indexes a list, because PHP
  casts such string keys to integers.
- Under `strict_types`, the following fail with a type error:
  - a non-array `arguments` or `calls` entry;
  - a non-string `class`.
- The lock is never removed, on success or on failure (src/Container.php:140).
  `ContainerProperties.RetryAfterFailedBuildIsCircular` states the
  consequence.
- The method key of a call entry is `'arguments'`, the same key as its
  argument list (see "## Findings").

Modules:

| file | module | what it holds |
|---|---|---|
| `wrappers.dfy` | `Wrappers` | `Option` and `Result` |
| `references.dfy` | `References` | the two reference kinds |
| `values.dfy` | `Values` | PHP values, instances, `isset` lookups, list keys |
| `errors.dfy` | `Errors` | the failure kinds |
| `paths.dfy` | `Paths` | `explode('.')` and its inverse |
| `parameters.dfy` | `Parameters` | `getParameter` and `hasParameter` |
| `container.dfy` | `Container` | the state, the invariants and the engine |
| `properties.dfy` | `ContainerProperties` | lemmas that relate several calls |
| `scenarios.dfy` | `Scenarios` | concrete containers |

## Model

| member | source | states |
|---|---|---|
| Container.New | src/Container.php:56-61 | A new container holds exactly the given definitions and parameters, with an empty cache and an empty construction log. It satisfies the state invariant, and call entries are read with the key as written. |
| Container.NewCorrected | src/Container.php:193-201 | The same fresh container, holding the given definitions and parameters, except that call entries name their method under `'method'`. |
| Container.Lock | src/Container.php:140 | After locking, the definition counts as locked. Every other key reads exactly as before. |
| Container.Vet | src/Container.php:132-138 | The checks succeed exactly when the definition is an array naming an existing class and carries no lock. They run in the source's order. A non-array or a missing class key is InvalidDefinition whatever else holds. A class entry that is not a string is a type error. A string class that does not exist is ClassNotFound for that class, whether or not the definition is locked. A well-formed locked definition is CircularReference. On success the definition is a dictionary and the returned class is its class entry. |
| Container.Get | src/Container.php:66-77 | An undefined name fails with ServiceNotFound and changes nothing. A cached name returns its cached instance and changes nothing. A success leaves the result cached under the name. A failed build caches nothing for the name. The cache only grows. Definitions only gain locks. Parameters never change. The state invariant is preserved. A ServiceNotFound, ParameterNotFound or ClassNotFound error names a real cause. |
| Container.CreateService | src/Container.php:127-152 | A definition that fails its checks leaves the state exactly as it was. One that passes is locked afterwards, whatever the outcome. A success has the requested class. Its constructor arguments and calls are what the definition asks for. It is a construction logged during this request, under this name. |
| Container.Build | src/Container.php:140-142 | Whatever the outcome, the definition is locked when the build ends, and the build never caches the name. A success is the requested class with the arguments and calls its definition asks for, constructed during this build under this name. |
| Container.Finish | src/Container.php:144-151 | Once the arguments are resolved, a success is the requested class built as its definition asks, and a ServiceNotFound, ParameterNotFound or ClassNotFound error names a real cause. It is logged under this name during this request. The state invariant is preserved. |
| Container.ResolveArguments | src/Container.php:161-180 | On success the result has one value per specification, in the same order. A service reference resolves to the instance cached for it. A parameter reference resolves to the parameter's value. A literal resolves to itself. A ServiceNotFound, ParameterNotFound or ClassNotFound error names a real cause, and the state only evolves. |
| Container.ResolveArgument | src/Container.php:165-176 | A parameter reference or a literal never changes the state. Only a service reference can build anything. |
| Container.InitializeService | src/Container.php:190-203 | On success there is one recorded call per call entry, in declared order. Each call names the entry's method and carries its resolved arguments. Every entry named, under the method key, a method the instance can be called with. |
| Container.RunCall | src/Container.php:199-201 | For an accepted entry, the call is made with the entry's resolved arguments, ahead of the calls the remaining entries make. It keeps the same promises as `InitializeService`. |
| Container.LockEntry | src/Container.php:130-140 | Locking takes exactly the locked name out of the set of unlocked definitions, which is the termination measure. Nothing else changes. |
| Container.Construct | src/Container.php:144-145 | Logging a construction keeps the state invariant: no name is constructed twice, and every constructed name is locked. |
| Parameters.Walk | src/Container.php:95-101 | A walk over at least one segment never ends on `null`. |
| Parameters.Resolve | src/Container.php:90-104 | The only failure is ParameterNotFound for the requested path, and a found value is never `null`. |
| Parameters.WalkAppend | src/Container.php:95-101 | Walking a concatenated path is walking the first part, then the second from where the first ended. |
| Parameters.WalkAgreesWithWalkFromEnd | src/Container.php:95-101 | Descending segment by segment from the front gives the same value as the reference reading that takes segments off the end. |
| Parameters.ResolveTop | src/Container.php:92-100 | A path without a dot is the top-level entry of that name, or ParameterNotFound. |
| Parameters.ResolveChild | src/Container.php:90-104 | The value at `a.b` is entry `b` of the value at `a`. It is not found when `a` is not found, or when `b` is absent or null there. |
| Parameters.HasIffResolves | src/Container.php:109-118 | `hasParameter` holds exactly when `getParameter` succeeds, and fails exactly when `getParameter` reports ParameterNotFound for that path. |
| Paths.Split | src/Container.php:92 | Splitting gives at least one segment, and no segment contains a dot. |
| Paths.JoinSplit | src/Container.php:92 | Joining the segments of a path with dots gives the path back. |
| Paths.SplitJoin | src/Container.php:92 | Splitting a dot-join of dot-free segments gives the segments back. |
| Paths.SplitPrefix | src/Container.php:92 | A dot-free prefix followed by a dot is the first segment. A dot-free string is a single segment. |
| Paths.JoinAppend | src/Container.php:92 | Joining one more segment appends a dot and that segment. |
| Paths.SplitChild | src/Container.php:92 | Appending `.key` to a path appends `key` to its segments. |
| Values.Lookup | src/Container.php:96-100 | A found value is never `null` and comes from an array. In a dictionary a key is found exactly when it is bound to a non-null value, and what is found is that value. |
| Values.KeyOf | src/Container.php:96 | The rendering of a list position is a non-empty string of digits. |
| Values.IntegerKeyOfKeyOf | src/Container.php:96-100 | The decimal rendering of a position is read back as that position. |
| Values.KeyOfIntegerKey | src/Container.php:96-100 | Every string that PHP reads as an integer key is the decimal rendering of that integer. |
| Values.ListLookup | src/Container.php:96-100 | A segment finds a list item exactly when it is the decimal rendering of a position that holds a non-null item, and then it finds that item. |
| ContainerProperties.HasIffFound | src/Container.php:66-70 | `has(name)` holds exactly when `get(name)` does not fail with ServiceNotFound. |
| ContainerProperties.GetBuildsAsDefined | src/Container.php:72-73 | When `get` builds a name that was not cached, the definition passed its checks. The result has the definition's class, its resolved constructor arguments and its calls, and was constructed for this name during this request. |
| ContainerProperties.SecondGetIsCached | src/Container.php:72-76 | After a successful `get(name)`, a second `get(name)` returns the same instance and changes nothing. |
| ContainerProperties.CachedInstanceIsStable | src/Container.php:72-76 | After any other request, a cached name still returns the instance first cached for it. |
| ContainerProperties.CachedInstancesAreDistinct | src/Container.php:72-73 | In a reachable state, two different cached names hold two different objects, each the one constructed for its own name. |
| ContainerProperties.DependencyCycleIsDetected | src/Container.php:136-142 | Take a chain of uncached services, each taking the next as its first constructor argument. If the chain returns to its start or reaches a service already being built, `get` of the first fails with CircularReference for the last, instead of recursing. |
| ContainerProperties.MutualDependencyIsDetected | src/Container.php:136-142 | Two services that each take the other as their only argument: `get` of the first fails with CircularReference for it. |
| ContainerProperties.RetryAfterFailedBuildIsCircular | src/Container.php:136-140 | A build that failed leaves its lock behind. Every retry fails with CircularReference and changes nothing. |
| ContainerProperties.ResolveArgumentsAppend | src/Container.php:165-177 | Resolving a concatenation resolves the first part, then the second from the state the first left. The first failure ends resolution. |
| ContainerProperties.ResolveArgumentsPair | src/Container.php:165-177 | Two arguments resolve one after the other, and their values come back in the same order. |
| ContainerProperties.ServiceThenParameter | src/Container.php:166-173 | A service reference followed by a parameter reference: the service is fetched first, then the parameter is read in the resulting state. |
| ContainerProperties.ArgumentsWithoutServices | src/Container.php:161-180 | A list without service references leaves the state alone. It resolves exactly when each of its parameter references does. A list of literals comes back unchanged. |
| ContainerProperties.BadCallStopsBeforeArguments | src/Container.php:192-197 | A call entry that is not an array holding the method key fails with InvalidCall for the service. An entry whose method is not callable fails with UncallableMethod for the service and that method. Either way the failure comes before the entry's arguments are resolved, and nothing changes. |
| ContainerProperties.GetWithoutCalls | src/Container.php:140-151 | A service without calls whose arguments resolve gets a new instance of its class with those values. The instance is logged and cached under its name. |
| ContainerProperties.ClassOnlyServiceBuilds | src/Container.php:140-151 | A definition holding only a class builds that class with no arguments and no calls. |
| ContainerProperties.ServiceWithArgumentsBuilds | src/Container.php:140-151 | A definition with a class and arguments but no calls builds that class with the resolved arguments. |
| ContainerProperties.CallOnLockedServiceIsCircular | src/Container.php:192-199 | With calls read from `'method'`, a callable call entry whose first argument refers to a service still being built fails with CircularReference for it. |
| ContainerProperties.SelfReferenceInCallIsDetected | src/Container.php:73 | With calls read from `'method'`, a service whose first call takes the service itself cannot be built. The cache is written only after construction returns, so the lock is still set while the calls run. |
| ContainerProperties.CallsAlwaysFailAsWritten | src/Container.php:193-199 | With the method key as written, a non-empty call list always fails. |
| ContainerProperties.ServicesWithCallsNeverBuildAsWritten | src/Container.php:147-149 | With the method key as written, a service with at least one call can never be built. |
| ContainerProperties.CallsRunInOrder | src/Container.php:190-203 | With calls read from `'method'`, callable calls with literal arguments are all made, in declared order. Each has its own method and arguments, and the state is unchanged. |
| Scenarios.TwoLevelParameter | src/Container.php:90-118 | A path `a.b` reads entry `b` of top-level parameter `a`, and `hasParameter` agrees. |
| Scenarios.NestedParameterFound | src/Container.php:90-104 | `db.host` resolves to `localhost` and `db.port` to `5432`. |
| Scenarios.NestedParameterMissing | src/Container.php:96-98 | `db.missing` is absent: ParameterNotFound for the whole path, and `hasParameter` is false. |
| Scenarios.ListParameterFound | src/Container.php:96-100 | `servers.1` reads the second item of a list. |
| Scenarios.UnknownService | src/Container.php:68-70 | An undefined name is not there, and `get` of it fails without changing anything. |
| Scenarios.TwoServiceCycle | src/Container.php:136-137 | With `a` needing `b` and `b` needing `a`, `get("a")` fails with CircularReference for `a`. |
| Scenarios.AppArgumentsResolve | src/Container.php:161-180 | Resolving the app's arguments builds `logger` first, then reads `env.name`. |
| Scenarios.AppBuilds | src/Container.php:66-77 | The first `get("app")` builds `logger` and then `App(logger, "prod")`, and caches both, in that order. |
| Scenarios.EndToEnd | src/Container.php:72-76 | A second `get("app")` returns the same instance. |
| Scenarios.LevelCallRefusedAsWritten | src/Container.php:193-196 | With the method key as written, a `setLevel("debug")` call entry is refused as uncallable. |
| Scenarios.LevelCallMadeWhenCorrected | src/Container.php:190-203 | With `'method'`, the same entry records the call `setLevel("debug")`. |

## Left out

- PHP reflection is replaced by a `Container.Runtime` registry. It gives the classes that exist and, per class, the methods an instance accepts. This stands in for `class_exists`, `ReflectionClass::newInstanceArgs`, `is_callable` and `call_user_func_array`.
- Constructors and called methods never fail and have no side effects. An instance records its constructor arguments and its calls. Exceptions thrown by user code are not modelled.
- Container.InitializeService: return values of called methods are not modelled, because the source discards them.
- Any array the model holds as a dictionary is a type error when used as an argument or call list. This covers a string-keyed array, an integer-keyed array not in 0..n-1 order, and an empty array held as a dictionary. PHP would iterate any of them in insertion order, but the model's dictionaries are unordered.
- Descending a parameter path into a string is "not found" in the model. PHP's string-offset `isset` semantics are not modelled.
- Descending a parameter path into an object or a reference is also "not found" in the model, so `hasParameter` answers false. In PHP, `isset` on an object that does not implement ArrayAccess throws an Error. `hasParameter` does not catch that Error, so PHP would propagate it.
- A call entry whose method value is an object or a reference gets UncallableMethod in the model. In PHP, line 196 of src/Container.php puts that value into the error message, and converting an object to a string there throws an Error instead.
- Floats, resources and closures as values are not modelled.
- A decimal key beyond the 64-bit integer range is read as an integer by the model. PHP would keep it as a string. No list is that long, so no lookup result differs.
- The PSR-11 interface and the exception class hierarchy are not modelled. They become the `Errors.Error` variants, and error messages are not modelled.
- ContainerProperties.DependencyCycleIsDetected: covers chains that run through each service's first constructor argument. A cycle through a later argument or a call is still caught, because `Get` is total and the lock check is the only way back to a locked name. Cycles through calls are stated separately in `SelfReferenceInCallIsDetected`, for calls read from `'method'`.
- Container.Get: the "real cause" clause (`Explains`) is stated only for ServiceNotFound, ParameterNotFound and ClassNotFound. The other errors carry no extra claim. The same holds for the clause in Container.CreateService, Container.Build, Container.Finish, Container.ResolveArguments, Container.ResolveArgument and Container.InitializeService.

## Findings

| source | as written | input that shows it | evidently intended | confidence | as-written member | corrected member |
|---|---|---|---|---|---|---|
| src/Container.php:39 | `METHOD_KEY` is `'arguments'`, so the method of a call entry is read from the same key as its argument list (lines 193-201). A callable method name is a string. Line 199 then hands that string to `resolveArguments(array ...)`, which is a type error. Any other value is not callable. | the call entry `['method' => 'setLevel', 'arguments' => ['debug']]` on a class with a callable `setLevel`: as written it is refused as uncallable, with the argument list taken for the method name | `METHOD_KEY = 'method'`, the key the error message at line 194 names | not executed | ContainerProperties.CallsAlwaysFailAsWritten, ContainerProperties.ServicesWithCallsNeverBuildAsWritten, Scenarios.LevelCallRefusedAsWritten | ContainerProperties.CallsRunInOrder, Scenarios.LevelCallMadeWhenCorrected |

The engine takes the method key as part of its state. `Container.New`
builds the container as written, and `Container.NewCorrected` builds it with
`'method'`. `CallOnLockedServiceIsCircular` and `SelfReferenceInCallIsDetected` are stated for
`'method'` only. As written, no call entry gets as far as resolving its
arguments, so such a service fails with UncallableMethod or a type error before
any lock is checked (`ServicesWithCallsNeverBuildAsWritten`). The members
named in the Findings row hold under one key only: the as-written ones under
`'arguments'`, the corrected ones under `'method'`. Every property not named
in the Findings row or in this paragraph holds under both keys.

=== FILE: container.dfy ===
/** The resolution engine of the container (src/Container.php): service
    lookup with a lazy singleton cache, service construction with cycle
    detection through a `lock` entry written into the definition, argument
    resolution and post-construction calls. Every operation maps a state to
    a result and the next state; as in the source, a failure keeps every
    change made before it (locks set, dependencies built and cached). */
module Container {
  import opened Wrappers
  import opened References
  import opened Values
  import opened Errors
  import Parameters

  /** The definition keys the source reads (src/Container.php:35-39). */
  const CLASS_KEY: string := "class"
  const ARGUMENT_KEY: string := "arguments"
  /** As written, the method name of a call entry is read from the same key
      as its argument list. */
  const METHOD_KEY: string := "arguments"
  /** The key the source's own error message names for the method. */
  const INTENDED_METHOD_KEY: string := "method"
  const CALLS_KEY: string := "calls"
  const LOCK_KEY: string := "lock"

  /** What PHP reflection would answer: the classes that exist and, per
      class, the method names an instance of it can be called with. */
  datatype Runtime = Runtime(classes: set<string>, methods: map<string, set<string>>)

  /** `is_callable([$instance, $callee])`. */
  predicate Callable(rt: Runtime, inst: Instance, callee: Value) {
    callee.Str? && inst.className in rt.methods && callee.s in rt.methods[inst.className]
  }

  /** The container's fields: service definitions (with the locks written
      into them), parameters and the instance cache; `log` lists the
      services whose class has been instantiated, in order, and `methodKey`
      is the key a call entry's method is read from. */
  datatype State = State(
    services: map<string, Value>,
    parameters: map<string, Value>,
    store: map<string, Instance>,
    log: seq<string>,
    methodKey: string)

  /** The outcome of one operation together with the state it leaves. */
  datatype Run<T> = Run(r: Result<T, Error>, c: State)

  /** `new Container($services, $parameters)`. */
  function New(services: map<string, Value>, parameters: map<string, Value>): (c: State)
    ensures c.services == services && c.parameters == parameters
    ensures Valid(c) && c.store == map[] && c.log == [] && c.methodKey == METHOD_KEY
  {
    State(services, parameters, map[], [], METHOD_KEY)
  }

  /** The same container with call entries read from the key 'method'. */
  function NewCorrected(services: map<string, Value>, parameters: map<string, Value>): (c: State)
    ensures c.services == services && c.parameters == parameters
    ensures Valid(c) && c.store == map[] && c.log == [] && c.methodKey == INTENDED_METHOD_KEY
  {
    State(services, parameters, map[], [], INTENDED_METHOD_KEY)
  }

  /** `has($name)`: a definition is present and not null. */
  predicate Has(c: State, name: string) {
    name in c.services && c.services[name] != Null
  }

  function GetParameter(c: State, path: string): Result<Value, Error> {
    Parameters.Resolve(Dict(c.parameters), path)
  }

  predicate HasParameter(c: State, path: string) {
    Parameters.Has(Dict(c.parameters), path)
  }

  /** `isset($entry['lock'])`. */
  predicate Locked(entry: Value) {
    Lookup(entry, LOCK_KEY).Some?
  }

  /** `$entry['lock'] = true` on an array definition. */
  function Lock(entry: Value): (locked: Value)
    requires entry.Dict?
    ensures locked.Dict? && Locked(locked)
    ensures forall k | k != LOCK_KEY :: Lookup(locked, k) == Lookup(entry, k)
  {
    Dict(entry.entries[LOCK_KEY := Bool(true)])
  }

  /** The only change a definition ever undergoes: it gains a lock. */
  predicate LockStep(entry: Value, entry': Value) {
    entry' == entry || (entry.Dict? && !Locked(entry) && entry' == Lock(entry))
  }

  /** The names whose definition carries no lock: the termination measure. */
  function Unlocked(c: State): set<string> {
    set n | n in c.services && !Locked(c.services[n])
  }

  /** How any operation may change the state: parameters and the method key
      never change, definitions only gain locks, the cache and the
      construction log only grow, and whatever is newly cached or newly
      constructed was unlocked before. */
  ghost predicate Evolves(c: State, c': State) {
    && c'.parameters == c.parameters
    && c'.methodKey == c.methodKey
    && c'.services.Keys == c.services.Keys
    && (forall n | n in c.services :: LockStep(c.services[n], c'.services[n]))
    && (forall n | n in c.store :: n in c'.store && c'.store[n] == c.store[n])
    && (forall n | n in c'.store && n !in c.store :: n in Unlocked(c))
    && c.log <= c'.log
    && (forall i | |c.log| <= i < |c'.log| :: c'.log[i] in Unlocked(c))
  }

  /** Every reachable state: each cached instance is the one constructed for
      its name, every constructed name is locked, and no name has been
      constructed twice. */
  ghost predicate Valid(c: State) {
    && (forall n | n in c.store :: c.store[n].id < |c.log| && c.log[c.store[n].id] == n)
    && (forall i | 0 <= i < |c.log| :: c.log[i] in c.services && Locked(c.services[c.log[i]]))
    && (forall i, j | 0 <= i < j < |c.log| :: c.log[i] != c.log[j])
  }

  /** An error names a real cause: a missing service, an unresolvable path,
      an unregistered class. */
  ghost predicate Explains(rt: Runtime, c: State, e: Error) {
    match e
    case ServiceNotFound(n) => !Has(c, n)
    case ParameterNotFound(p) => GetParameter(c, p).Err?
    case ClassNotFound(_, cls) => cls !in rt.classes
    case _ => true
  }

  /** A definition that names an existing class. */
  ghost predicate WellFormed(rt: Runtime, entry: Value) {
    && IsArray(entry)
    && Lookup(entry, CLASS_KEY).Some?
    && Lookup(entry, CLASS_KEY).value.Str?
    && Lookup(entry, CLASS_KEY).value.s in rt.classes
  }

  /** `spec` resolved to `v` in state `c`. */
  ghost predicate Resolved(c: State, spec: Value, v: Value) {
    match spec
    case Ref(ServiceReference(n)) => n in c.store && v == Obj(c.store[n])
    case Ref(ParameterReference(p)) => GetParameter(c, p) == Ok(v)
    case _ => v == spec
  }

  ghost predicate ResolvedAll(c: State, specs: seq<Value>, vals: seq<Value>) {
    |vals| == |specs| && forall i | 0 <= i < |specs| :: Resolved(c, specs[i], vals[i])
  }

  /** `call` is what the call entry `spec` asks for. */
  ghost predicate CallMatches(c: State, spec: Value, call: Call) {
    && Lookup(spec, c.methodKey) == Some(Str(call.methodName))
    && ListOf(Lookup(spec, ARGUMENT_KEY)).Some?
    && ResolvedAll(c, ListOf(Lookup(spec, ARGUMENT_KEY)).value, call.args)
  }

  ghost predicate CallsMatch(c: State, specs: seq<Value>, calls: seq<Call>) {
    |calls| == |specs| && forall i | 0 <= i < |specs| :: CallMatches(c, specs[i], calls[i])
  }

  /** Every call entry in `specs` names, under `key`, a method `inst` can be
      called with. */
  ghost predicate AllCallable(rt: Runtime, inst: Instance, key: string, specs: seq<Value>) {
    forall i | 0 <= i < |specs| :: Lookup(specs[i], key).Some? && Callable(rt, inst, Lookup(specs[i], key).value)
  }

  /** `inst` is what definition `entry` of class `cls` asks for. */
  ghost predicate Built(c: State, entry: Value, cls: string, inst: Instance) {
    && inst.className == cls
    && ListOf(Lookup(entry, ARGUMENT_KEY)).Some?
    && ResolvedAll(c, ListOf(Lookup(entry, ARGUMENT_KEY)).value, inst.ctorArgs)
    && ListOf(Lookup(entry, CALLS_KEY)).Some?
    && CallsMatch(c, ListOf(Lookup(entry, CALLS_KEY)).value, inst.calls)
  }

  /** The checks `createService` makes before it touches anything, in the
      source's order: array with a class, class exists, not locked. */
  function Vet(rt: Runtime, name: string, entry: Value): (r: Result<string, Error>)
    ensures r.Ok? <==> WellFormed(rt, entry) && !Locked(entry)
    ensures r.Ok? ==> entry.Dict? && Lookup(entry, CLASS_KEY) == Some(Str(r.value))
    ensures Lookup(entry, CLASS_KEY).None? ==> r == Err(InvalidDefinition(name))
    ensures WellFormed(rt, entry) && Locked(entry) ==> r == Err(CircularReference(name))
    ensures r.Err? && r.error.ClassNotFound? ==> r.error.className !in rt.classes
    ensures IsArray(entry) && Lookup(entry, CLASS_KEY).Some? && Lookup(entry, CLASS_KEY).value.Str?
              && Lookup(entry, CLASS_KEY).value.s !in rt.classes ==>
              r == Err(ClassNotFound(name, Lookup(entry, CLASS_KEY).value.s))
    ensures IsArray(entry) && Lookup(entry, CLASS_KEY).Some? && !Lookup(entry, CLASS_KEY).value.Str? ==>
              r == Err(TypeError(name))
  {
    var cls := Lookup(entry, CLASS_KEY);
    if !IsArray(entry) || cls.None? then Err(InvalidDefinition(name))
    else if !cls.value.Str? then Err(TypeError(name))
    else if cls.value.s !in rt.classes then Err(ClassNotFound(name, cls.value.s))
    else if Locked(entry) then Err(CircularReference(name))
    else Ok(cls.value.s)
  }

  /** `get($name)` (src/Container.php:66-77). */
  function Get(rt: Runtime, c: State, name: string): (run: Run<Instance>)
    ensures Evolves(c, run.c)
    ensures Valid(c) ==> Valid(run.c)
    ensures run.r.Err? ==> Explains(rt, c, run.r.error)
    ensures !Has(c, name) ==> run == Run(Err(ServiceNotFound(name)), c)
    ensures Has(c, name) && name in c.store ==> run == Run(Ok(c.store[name]), c)
    ensures run.r.Ok? ==> name in run.c.store && run.c.store[name] == run.r.value
    ensures run.r.Err? && name !in c.store ==> name !in run.c.store
    decreases Unlocked(c), 1, 0
  {
    if !Has(c, name) then Run(Err(ServiceNotFound(name)), c)
    else if name in c.store then Run(Ok(c.store[name]), c)
    else
      var built := CreateService(rt, c, name);
      if built.r.Err? then built
      else Run(Ok(built.r.value), built.c.(store := built.c.store[name := built.r.value]))
  }

  /** `createService($name)` (src/Container.php:127-152). */
  function CreateService(rt: Runtime, c: State, name: string): (run: Run<Instance>)
    requires Has(c, name)
    ensures Evolves(c, run.c)
    ensures Valid(c) ==> Valid(run.c)
    ensures run.r.Err? ==> Explains(rt, c, run.r.error)
    ensures Vet(rt, name, c.services[name]).Err? ==>
              run == Run(Err(Vet(rt, name, c.services[name]).error), c)
    ensures Vet(rt, name, c.services[name]).Ok? ==> Locked(run.c.services[name])
    ensures name in run.c.store ==> name in c.store
    ensures run.r.Ok? ==>
              && Vet(rt, name, c.services[name]).Ok?
              && Built(run.c, c.services[name], Vet(rt, name, c.services[name]).value, run.r.value)
              && |c.log| <= run.r.value.id < |run.c.log|
              && run.c.log[run.r.value.id] == name
    decreases Unlocked(c), 0, 2
  {
    match Vet(rt, name, c.services[name])
    case Err(e) => Run(Err(e), c)
    case Ok(cls) => Build(rt, c, name, cls)
  }

  /** The part of `createService` after the checks: lock, then resolve the
      constructor arguments. */
  function Build(rt: Runtime, c: State, name: string, cls: string): (run: Run<Instance>)
    requires Has(c, name) && Vet(rt, name, c.services[name]) == Ok(cls)
    ensures Evolves(c, run.c)
    ensures Valid(c) ==> Valid(run.c)
    ensures run.r.Err? ==> Explains(rt, c, run.r.error)
    ensures Locked(run.c.services[name])
    ensures name in run.c.store ==> name in c.store
    ensures run.r.Ok? ==>
              && Built(run.c, c.services[name], cls, run.r.value)
              && |c.log| <= run.r.value.id < |run.c.log|
              && run.c.log[run.r.value.id] == name
    decreases Unlocked(c), 0, 1
  {
    var c1 := LockEntry(c, name);
    match ListOf(Lookup(c1.services[name], ARGUMENT_KEY))
    case None => Run(Err(TypeError(name)), c1)
    case Some(argSpecs) =>
      var args := ResolveArguments(rt, c1, argSpecs);
      EvolvesShrinks(c1, args.c);
      Chain(rt, c, c1, args.c);
      if args.r.Err? then Run(Err(args.r.error), args.c)
      else
        Finish(rt, c, c1, args.c, name, cls, argSpecs, args.r.value)
  }

  /** The rest of `createService`: instantiate the class with the resolved
      arguments `vals`, then run the calls (src/Container.php:144-151). */
  function Finish(rt: Runtime, c: State, c1: State, c2: State, name: string, cls: string,
                  argSpecs: seq<Value>, vals: seq<Value>): (run: Run<Instance>)
    requires Has(c, name) && Vet(rt, name, c.services[name]) == Ok(cls)
    requires c1 == LockEntry(c, name) && Evolves(c1, c2) && (Valid(c1) ==> Valid(c2))
    requires ListOf(Lookup(c.services[name], ARGUMENT_KEY)) == Some(argSpecs)
    requires ResolvedAll(c2, argSpecs, vals)
    ensures Evolves(c, run.c)
    ensures Valid(c) ==> Valid(run.c)
    ensures run.r.Err? ==> Explains(rt, c, run.r.error)
    ensures Locked(run.c.services[name])
    ensures name in run.c.store ==> name in c.store
    ensures run.r.Ok? ==>
              && Built(run.c, c.services[name], cls, run.r.value)
              && |c.log| <= run.r.value.id < |run.c.log|
              && run.c.log[run.r.value.id] == name
    decreases Unlocked(c2), 5, 0
  {
    var inst := Instance(|c2.log|, cls, vals, []);
    var c3 := Construct(c, c1, c2, name);
    match ListOf(Lookup(c1.services[name], CALLS_KEY))
    case None => Run(Err(TypeError(name)), c3)
    case Some(callSpecs) =>
      var calls := InitializeService(rt, c3, name, inst, callSpecs);
      Chain(rt, c, c3, calls.c);
      if calls.r.Err? then Run(Err(calls.r.error), calls.c)
      else
        ResolvedAllStable(c3, calls.c, argSpecs, vals);
        Run(Ok(inst.(calls := calls.r.value)), calls.c)
  }

  /** `resolveArguments($definitions)` (src/Container.php:161-180): each
      definition is resolved in turn and its value appended, in order. */
  function ResolveArguments(rt: Runtime, c: State, specs: seq<Value>): (run: Run<seq<Value>>)
    ensures Evolves(c, run.c)
    ensures Valid(c) ==> Valid(run.c)
    ensures run.r.Err? ==> Explains(rt, c, run.r.error)
    ensures run.r.Ok? ==> ResolvedAll(run.c, specs, run.r.value)
    decreases Unlocked(c), 3, |specs|
  {
    if specs == [] then Run(Ok([]), c)
    else
      var first := ResolveArgument(rt, c, specs[0]);
      EvolvesShrinks(c, first.c);
      if first.r.Err? then Run(Err(first.r.error), first.c)
      else
        var rest := ResolveArguments(rt, first.c, specs[1..]);
        Chain(rt, c, first.c, rest.c);
        if rest.r.Err? then rest
        else
          ResolvedStable(first.c, rest.c, specs[0], first.r.value);
          Run(Ok([first.r.value] + rest.r.value), rest.c)
  }

  /** One step of the loop in `resolveArguments`: a service reference becomes
      `get(name)`, a parameter reference `getParameter(path)`, anything else
      is passed through. */
  function ResolveArgument(rt: Runtime, c: State, spec: Value): (run: Run<Value>)
    ensures Evolves(c, run.c)
    ensures Valid(c) ==> Valid(run.c)
    ensures run.r.Err? ==> Explains(rt, c, run.r.error)
    ensures run.r.Ok? ==> Resolved(run.c, spec, run.r.value)
    ensures !(spec.Ref? && spec.ref.ServiceReference?) ==> run.c == c
    decreases Unlocked(c), 2, 0
  {
    match spec
    case Ref(ServiceReference(n)) =>
      var got := Get(rt, c, n);
      if got.r.Err? then Run(Err(got.r.error), got.c) else Run(Ok(Obj(got.r.value)), got.c)
    case Ref(ParameterReference(p)) => Run(GetParameter(c, p), c)
    case _ => Run(Ok(spec), c)
  }

  /** `initializeService($service, $name, $calls)` (src/Container.php:190-203):
      returns the calls made, in order. Each entry is checked before its
      arguments are resolved. */
  function InitializeService(rt: Runtime, c: State, name: string, inst: Instance, specs: seq<Value>)
    : (run: Run<seq<Call>>)
    ensures Evolves(c, run.c)
    ensures Valid(c) ==> Valid(run.c)
    ensures run.r.Err? ==> Explains(rt, c, run.r.error)
    ensures run.r.Ok? ==> CallsMatch(run.c, specs, run.r.value)
    ensures run.r.Ok? ==> AllCallable(rt, inst, c.methodKey, specs)
    decreases Unlocked(c), 4, |specs|, 1
  {
    if specs == [] then Run(Ok([]), c)
    else
      var spec := specs[0];
      var callee := Lookup(spec, c.methodKey);
      if !IsArray(spec) || callee.None? then Run(Err(InvalidCall(name)), c)
      else if !Callable(rt, inst, callee.value) then Run(Err(UncallableMethod(name, callee.value)), c)
      else
        match ListOf(Lookup(spec, ARGUMENT_KEY))
        case None => Run(Err(TypeError(name)), c)
        case Some(argSpecs) => RunCall(rt, c, name, inst, specs, callee.value.s, argSpecs)
  }

  /** One accepted call entry: resolve its arguments, make the call, then
      go on with the remaining entries (src/Container.php:199-201). */
  function RunCall(rt: Runtime, c: State, name: string, inst: Instance, specs: seq<Value>,
                   methodName: string, argSpecs: seq<Value>): (run: Run<seq<Call>>)
    requires |specs| > 0 && Lookup(specs[0], c.methodKey) == Some(Str(methodName))
    requires Callable(rt, inst, Str(methodName))
    requires ListOf(Lookup(specs[0], ARGUMENT_KEY)) == Some(argSpecs)
    ensures Evolves(c, run.c)
    ensures Valid(c) ==> Valid(run.c)
    ensures run.r.Err? ==> Explains(rt, c, run.r.error)
    ensures run.r.Ok? ==> CallsMatch(run.c, specs, run.r.value)
    ensures run.r.Ok? ==> AllCallable(rt, inst, c.methodKey, specs)
    decreases Unlocked(c), 4, |specs|, 0
  {
    var args := ResolveArguments(rt, c, argSpecs);
    EvolvesShrinks(c, args.c);
    if args.r.Err? then Run(Err(args.r.error), args.c)
    else
      var rest := InitializeService(rt, args.c, name, inst, specs[1..]);
      Chain(rt, c, args.c, rest.c);
      if rest.r.Err? then rest
      else
        ResolvedAllStable(args.c, rest.c, argSpecs, args.r.value);
        AllCallableCons(rt, inst, c.methodKey, specs);
        Run(Ok([Call(methodName, args.r.value)] + rest.r.value), rest.c)
  }

  // ---- bookkeeping used by the engine ----

  /** Writes the lock into the definition of `name`. */
  function LockEntry(c: State, name: string): (c1: State)
    requires name in c.services && c.services[name].Dict? && !Locked(c.services[name])
    ensures Evolves(c, c1)
    ensures Unlocked(c1) == Unlocked(c) - {name} && name in Unlocked(c)
    ensures c1.services[name] == Lock(c.services[name])
    ensures c1.store == c.store && c1.log == c.log
    ensures Valid(c) ==> Valid(c1)
  {
    c.(services := c.services[name := Lock(c.services[name])])
  }

  /** Records that the class of `name` has been instantiated, after its
      constructor arguments were resolved from `c1` to `c2`. */
  function Construct(c: State, c1: State, c2: State, name: string): (c3: State)
    requires name in Unlocked(c) && Evolves(c, c1) && Evolves(c1, c2) && c1.log == c.log
    requires name in c1.services && Locked(c1.services[name])
    requires Valid(c) ==> Valid(c1)
    requires Valid(c1) ==> Valid(c2)
    ensures Evolves(c, c3) && Unlocked(c3) <= Unlocked(c1) && name !in Unlocked(c1)
    ensures c3.store == c2.store && c3.services == c2.services && c3.parameters == c2.parameters
    ensures c3.log == c2.log + [name]
    ensures Valid(c) ==> Valid(c3)
  {
    ConstructKeepsInvariants(c, c1, c2, name);
    c2.(log := c2.log + [name])
  }

  lemma ConstructKeepsInvariants(c: State, c1: State, c2: State, name: string)
    requires name in Unlocked(c) && Evolves(c, c1) && Evolves(c1, c2) && c1.log == c.log
    requires name in c1.services && Locked(c1.services[name])
    requires Valid(c) ==> Valid(c1)
    requires Valid(c1) ==> Valid(c2)
    ensures Evolves(c, c2.(log := c2.log + [name]))
    ensures Unlocked(c2) <= Unlocked(c1)
    ensures Valid(c) ==> Valid(c2.(log := c2.log + [name]))
  {
    EvolvesShrinks(c1, c2);
    EvolvesTrans(c, c1, c2);
    var c3 := c2.(log := c2.log + [name]);
    assert c3.log[|c2.log|] == name;
    forall i | |c.log| <= i < |c3.log| ensures c3.log[i] in Unlocked(c) {
      if i < |c2.log| {
        assert c3.log[i] == c2.log[i];
      }
    }
    assert name !in Unlocked(c1);
    assert name !in c2.log[|c1.log|..] by {
      forall i | |c1.log| <= i < |c2.log| ensures c2.log[i] != name {
        assert c2.log[i] in Unlocked(c1);
      }
    }
    if Valid(c) {
      assert name !in c.log;
      assert c2.log == c.log + c2.log[|c1.log|..];
      assert name !in c2.log;
      assert Locked(c2.services[name]);
      forall n | n in c3.store ensures c3.store[n].id < |c3.log| && c3.log[c3.store[n].id] == n {
        assert c3.log[c3.store[n].id] == c2.log[c2.store[n].id];
      }
      forall i | 0 <= i < |c3.log| ensures c3.log[i] in c3.services && Locked(c3.services[c3.log[i]]) {
        if i < |c2.log| {
          assert c3.log[i] == c2.log[i];
        }
      }
      forall i, j | 0 <= i < j < |c3.log| ensures c3.log[i] != c3.log[j] {
        if j == |c2.log| {
          assert c3.log[i] == c2.log[i];
          assert c2.log[i] in c2.log;
        } else {
          assert c3.log[i] == c2.log[i] && c3.log[j] == c2.log[j];
        }
      }
    }
  }

  /** Two evolutions make one, and an error that explains itself in the
      later state explains itself in the earlier one. */
  lemma Chain(rt: Runtime, c: State, c1: State, c2: State)
    requires Evolves(c, c1) && Evolves(c1, c2)
    ensures Evolves(c, c2)
    ensures forall e :: Explains(rt, c1, e) ==> Explains(rt, c, e)
  {
    EvolvesTrans(c, c1, c2);
  }

  lemma EvolvesShrinks(c: State, c': State)
    requires Evolves(c, c')
    ensures Unlocked(c') <= Unlocked(c)
  {
  }

  lemma EvolvesTrans(c: State, c': State, c'': State)
    requires Evolves(c, c') && Evolves(c', c'')
    ensures Evolves(c, c'')
  {
    EvolvesShrinks(c, c');
  }

  lemma ResolvedStable(c: State, c': State, spec: Value, v: Value)
    requires Evolves(c, c') && Resolved(c, spec, v)
    ensures Resolved(c', spec, v)
  {
  }

  lemma AllCallableCons(rt: Runtime, inst: Instance, key: string, specs: seq<Value>)
    requires |specs| > 0 && Lookup(specs[0], key).Some? && Callable(rt, inst, Lookup(specs[0], key).value)
    requires AllCallable(rt, inst, key, specs[1..])
    ensures AllCallable(rt, inst, key, specs)
  {
    forall i | 1 <= i < |specs|
      ensures Lookup(specs[i], key).Some? && Callable(rt, inst, Lookup(specs[i], key).value)
    {
      assert specs[i] == specs[1..][i - 1];
    }
  }

  /** Caching more instances keeps a build's description true. */
  lemma BuiltStable(c: State, c': State, entry: Value, cls: string, inst: Instance)
    requires c'.parameters == c.parameters && c'.methodKey == c.methodKey
    requires forall n | n in c.store :: n in c'.store && c'.store[n] == c.store[n]
    requires Built(c, entry, cls, inst)
    ensures Built(c', entry, cls, inst)
  {
  }

  lemma ResolvedAllStable(c: State, c': State, specs: seq<Value>, vals: seq<Value>)
    requires Evolves(c, c') && ResolvedAll(c, specs, vals)
    ensures ResolvedAll(c', specs, vals)
  {
    forall i | 0 <= i < |specs| ensures Resolved(c', specs[i], vals[i]) {
      ResolvedStable(c, c', specs[i], vals[i]);
    }
  }
}

=== FILE: errors.dfy ===
/** The ways a container request can fail. The source throws three exception
    classes (ServiceNotFoundException, ParameterNotFoundException and a generic
    ContainerException); the ContainerException cases are told apart here by the
    message the source attaches to each, and PHP's own TypeError is added for the
    places where the source passes a non-array to an `array` parameter or a
    non-string to `class_exists` under strict types. */
module Errors {
  import opened Values

  datatype Error =
    | ServiceNotFound(name: string)                  // get() on a name without definition
    | ParameterNotFound(path: string)                // a path segment is missing or null
    | InvalidDefinition(name: string)                // entry is not an array with a 'class'
    | ClassNotFound(name: string, className: string) // the class is not registered
    | CircularReference(name: string)                // the entry already carries 'lock'
    | InvalidCall(name: string)                      // a call entry is not an array with the method key
    | UncallableMethod(name: string, callee: Value)   // the instance has no such callable method
    | TypeError(name: string)                        // PHP type error while building `name`
}

=== FILE: parameters.dfy ===
/** The parameter resolver: `getParameter` and `hasParameter`
    (src/Container.php:90-118). */
module Parameters {
  import opened Wrappers
  import opened Values
  import opened Errors
  import opened Paths

  /** Descend from `context` one token at a time; stop with `None` as soon as
      a token is missing or bound to null in the current context. */
  function Walk(context: Value, tokens: seq<string>): (r: Option<Value>)
    ensures |tokens| > 0 && r.Some? ==> r.value != Null
    decreases |tokens|
  {
    if tokens == [] then Some(context)
    else
      match Lookup(context, tokens[0])
      case None => None
      case Some(next) => Walk(next, tokens[1..])
  }

  /** `getParameter(path)` over the parameter tree `root`. */
  function Resolve(root: Value, path: string): (r: Result<Value, Error>)
    ensures r.Err? ==> r.error == ParameterNotFound(path)
    ensures r.Ok? ==> r.value != Null
  {
    match Walk(root, Split(path))
    case Some(v) => Ok(v)
    case None => Err(ParameterNotFound(path))
  }

  /** `hasParameter(path)`: the source catches ParameterNotFound, the only
      way `Resolve` fails. */
  predicate Has(root: Value, path: string) {
    Resolve(root, path).Ok?
  }

  /** The reference reading of a walk, consuming the tokens from the end:
      the value at `tokens + [t]` is entry `t` of the value at `tokens`. */
  function WalkFromEnd(context: Value, tokens: seq<string>): Option<Value>
    decreases |tokens|
  {
    if tokens == [] then Some(context)
    else
      match WalkFromEnd(context, tokens[..|tokens| - 1])
      case None => None
      case Some(parent) => Lookup(parent, tokens[|tokens| - 1])
  }

  /** Walking a concatenation walks the first part, then the second. */
  lemma {:induction false} WalkAppend(context: Value, a: seq<string>, b: seq<string>)
    ensures Walk(context, a + b) ==
              match Walk(context, a)
              case None => None
              case Some(mid) => Walk(mid, b)
    decreases |a|
  {
    if a != [] {
      assert (a + b)[1..] == a[1..] + b;
      assert (a + b)[0] == a[0];
      match Lookup(context, a[0])
      case None =>
      case Some(next) => WalkAppend(next, a[1..], b);
    } else {
      assert a + b == b;
    }
  }

  /** Descending head-first and descending tail-first agree on every path. */
  lemma {:induction false} WalkAgreesWithWalkFromEnd(context: Value, tokens: seq<string>)
    ensures Walk(context, tokens) == WalkFromEnd(context, tokens)
    decreases |tokens|
  {
    if tokens != [] {
      var init := tokens[..|tokens| - 1];
      var last := tokens[|tokens| - 1];
      WalkAgreesWithWalkFromEnd(context, init);
      assert tokens == init + [last];
      WalkAppend(context, init, [last]);
      match Walk(context, init)
      case None =>
      case Some(parent) =>
        assert Walk(parent, [last]) == Lookup(parent, last) by {
          match Lookup(parent, last)
          case None =>
          case Some(v) => assert [last][1..] == [];
        }
    }
  }

  /** A path without separator is looked up directly in the root. */
  lemma ResolveTop(root: Value, key: string)
    requires NoSeparator(key)
    ensures Resolve(root, key) ==
              match Lookup(root, key)
              case Some(v) => Ok(v)
              case None => Err(ParameterNotFound(key))
  {
    SplitPrefix(key, "");
    assert [key][1..] == [];
    match Lookup(root, key)
    case None =>
    case Some(v) => assert Walk(v, []) == Some(v);
  }

  /** `getParameter("a.b")` is the `b` entry of `getParameter("a")`, and it
      is not found whenever `getParameter("a")` is not. */
  lemma ResolveChild(root: Value, path: string, key: string)
    requires NoSeparator(key)
    ensures Resolve(root, path + [SEPARATOR] + key) ==
              match Resolve(root, path)
              case Err(_) => Err(ParameterNotFound(path + [SEPARATOR] + key))
              case Ok(parent) =>
                match Lookup(parent, key)
                case Some(v) => Ok(v)
                case None => Err(ParameterNotFound(path + [SEPARATOR] + key))
  {
    SplitChild(path, key);
    WalkAgreesWithWalkFromEnd(root, Split(path) + [key]);
    WalkAgreesWithWalkFromEnd(root, Split(path));
    assert (Split(path) + [key])[..|Split(path) + [key]| - 1] == Split(path);
  }

  /** `hasParameter` holds exactly when `getParameter` returns a value, and
      fails exactly when `getParameter` throws ParameterNotFound for that path. */
  lemma HasIffResolves(root: Value, path: string)
    ensures Has(root, path) <==> Resolve(root, path).Ok?
    ensures !Has(root, path) <==> Resolve(root, path) == Err(ParameterNotFound(path))
  {
  }
}

=== FILE: paths.dfy ===
/** Dotted parameter paths: PHP `explode('.', $path)` and its inverse. */
module Paths {

  const SEPARATOR: char := '.'

  predicate NoSeparator(s: string) {
    SEPARATOR !in s
  }

  /** `explode('.', s)`: the maximal separator-free pieces of `s`, in order.
      An empty string gives one empty segment, and so does each end of
      `s` that is a separator. */
  function Split(s: string): (segments: seq<string>)
    ensures |segments| >= 1
    ensures forall i | 0 <= i < |segments| :: NoSeparator(segments[i])
  {
    if |s| == 0 then [""]
    else
      var rest := Split(s[1..]);
      if s[0] == SEPARATOR then [""] + rest
      else [[s[0]] + rest[0]] + rest[1..]
  }

  /** `implode('.', segments)`. */
  function Join(segments: seq<string>): string
    requires |segments| >= 1
  {
    if |segments| == 1 then segments[0] else segments[0] + [SEPARATOR] + Join(segments[1..])
  }

  /** Joining the pieces of a path gives the path back. */
  lemma {:induction false} JoinSplit(s: string)
    ensures Join(Split(s)) == s
  {
    if |s| > 0 {
      var rest := Split(s[1..]);
      JoinSplit(s[1..]);
      if s[0] != SEPARATOR {
        var segs := Split(s);
        assert segs[1..] == rest[1..];
        if |rest| == 1 {
          assert Join(segs) == [s[0]] + rest[0];
        } else {
          assert Join(rest) == rest[0] + [SEPARATOR] + Join(rest[1..]);
          assert Join(segs) == [s[0]] + rest[0] + [SEPARATOR] + Join(rest[1..]);
        }
        assert s == [s[0]] + s[1..];
      } else {
        assert Split(s)[1..] == rest;
      }
    }
  }

  lemma {:induction false} SplitPrefix(x: string, t: string)
    requires NoSeparator(x)
    ensures Split(x + [SEPARATOR] + t) == [x] + Split(t)
    ensures Split(x) == [x]
  {
    if |x| == 0 {
      assert x + [SEPARATOR] + t == [SEPARATOR] + t;
      assert ([SEPARATOR] + t)[1..] == t;
    } else {
      SplitPrefix(x[1..], t);
      assert (x + [SEPARATOR] + t)[1..] == x[1..] + [SEPARATOR] + t;
      assert [x[0]] + x[1..] == x;
    }
  }

  /** Splitting a join of separator-free pieces gives the pieces back. */
  lemma {:induction false} SplitJoin(segments: seq<string>)
    requires |segments| >= 1
    requires forall i | 0 <= i < |segments| :: NoSeparator(segments[i])
    ensures Split(Join(segments)) == segments
  {
    SplitPrefix(segments[0], "");
    if |segments| > 1 {
      SplitJoin(segments[1..]);
      SplitPrefix(segments[0], Join(segments[1..]));
    }
  }

  lemma {:induction false} JoinAppend(segments: seq<string>, last: string)
    requires |segments| >= 1
    ensures Join(segments + [last]) == Join(segments) + [SEPARATOR] + last
  {
    if |segments| > 1 {
      assert (segments + [last])[1..] == segments[1..] + [last];
      JoinAppend(segments[1..], last);
    }
  }

  /** Appending `.key` to a path appends `key` to its segments. */
  lemma SplitChild(path: string, key: string)
    requires NoSeparator(key)
    ensures Split(path + [SEPARATOR] + key) == Split(path) + [key]
  {
    var segs := Split(path);
    JoinSplit(path);
    JoinAppend(segs, key);
    SplitJoin(segs + [key]);
  }
}

=== FILE: properties.dfy ===
/** Properties of the container engine that relate several calls. */
module ContainerProperties {
  import opened Wrappers
  import opened References
  import opened Values
  import opened Errors
  import opened Container

  /** `has(name)` is true exactly when `get(name)` does not fail with
      ServiceNotFound for that name. */
  lemma HasIffFound(rt: Runtime, c: State, name: string)
    ensures Has(c, name) <==> Get(rt, c, name).r != Err(ServiceNotFound(name))
  {
  }

  /** After `get(name)` has succeeded, `get(name)` returns the same instance
      again and changes nothing. */
  lemma SecondGetIsCached(rt: Runtime, c: State, name: string)
    requires Get(rt, c, name).r.Ok?
    ensures Get(rt, Get(rt, c, name).c, name) == Run(Ok(Get(rt, c, name).r.value), Get(rt, c, name).c)
  {
  }

  /** Every later `get` of a cached name, after any other requests, returns
      the instance first cached for it. */
  lemma CachedInstanceIsStable(rt: Runtime, c: State, name: string, other: string)
    requires Has(c, name) && name in c.store
    ensures var c' := Get(rt, c, other).c;
            Get(rt, c', name) == Run(Ok(c.store[name]), c')
  {
  }

  /** In a reachable state two different cached services are two different
      objects, each the one constructed for its own name. */
  lemma CachedInstancesAreDistinct(c: State, a: string, b: string)
    requires Valid(c) && a in c.store && b in c.store && a != b
    ensures c.store[a].id != c.store[b].id
    ensures c.log[c.store[a].id] == a
  {
  }

  /** A `get` that builds returns what the definition asks for: the
      definition passed its checks, the instance has its class, its resolved
      constructor arguments and its calls, and it was constructed for this
      name during this request. */
  lemma GetBuildsAsDefined(rt: Runtime, c: State, name: string)
    ensures var run := Get(rt, c, name);
            run.r.Ok? && name !in c.store ==>
              && Vet(rt, name, c.services[name]).Ok?
              && Built(run.c, c.services[name], Vet(rt, name, c.services[name]).value, run.r.value)
              && |c.log| <= run.r.value.id < |run.c.log|
              && run.c.log[run.r.value.id] == name
  {
    var run := Get(rt, c, name);
    if run.r.Ok? && name !in c.store {
      var built := CreateService(rt, c, name);
      BuiltStable(built.c, run.c, c.services[name], Vet(rt, name, c.services[name]).value, run.r.value);
    }
  }

  /** A service that is defined, not cached, names an existing class. */
  ghost predicate Pending(rt: Runtime, c: State, name: string) {
    Has(c, name) && name !in c.store && WellFormed(rt, c.services[name])
  }

  /** The first constructor argument of `name` is a reference to `next`. */
  ghost predicate FirstArgument(c: State, name: string, next: string) {
    && name in c.services
    && ListOf(Lookup(c.services[name], ARGUMENT_KEY)).Some?
    && |ListOf(Lookup(c.services[name], ARGUMENT_KEY)).value| > 0
    && ListOf(Lookup(c.services[name], ARGUMENT_KEY)).value[0] == Ref(ServiceReference(next))
  }

  /** `get` of a pending, unlocked name is its build. */
  lemma GetUnfolds(rt: Runtime, c: State, name: string)
    requires Pending(rt, c, name) && !Locked(c.services[name])
    ensures Vet(rt, name, c.services[name]).Ok?
    ensures Get(rt, c, name).r == Build(rt, c, name, Vet(rt, name, c.services[name]).value).r
  {
  }

  /** A build fails with the first error of its constructor arguments, or
      goes on to instantiate. */
  lemma BuildUnfolds(rt: Runtime, c: State, name: string, cls: string)
    requires Has(c, name) && Vet(rt, name, c.services[name]) == Ok(cls)
    requires ListOf(Lookup(c.services[name], ARGUMENT_KEY)).Some?
    ensures var c1 := LockEntry(c, name);
            var specs := ListOf(Lookup(c.services[name], ARGUMENT_KEY)).value;
            var args := ResolveArguments(rt, c1, specs);
            Build(rt, c, name, cls).r ==
              if args.r.Err? then Err(args.r.error)
              else Finish(rt, c, c1, args.c, name, cls, specs, args.r.value).r
  {
    var c1 := LockEntry(c, name);
    assert Lookup(c1.services[name], ARGUMENT_KEY) == Lookup(c.services[name], ARGUMENT_KEY);
  }

  /** A chain of services, each unlocked and uncached, each taking the next
      as its first constructor argument, that ends at a service already
      being built (or returns to its start) makes `get` of the first fail
      with CircularReference for the last, instead of recursing forever. */
  lemma {:induction false} DependencyCycleIsDetected(rt: Runtime, c: State, path: seq<string>)
    requires |path| >= 1
    requires forall i | 0 <= i < |path| :: Pending(rt, c, path[i])
    requires forall i | 0 <= i < |path| - 1 :: path[i] in Unlocked(c) && FirstArgument(c, path[i], path[i + 1])
    requires forall i, j | 0 <= i < j < |path| - 1 :: path[i] != path[j]
    requires path[|path| - 1] !in Unlocked(c) || (|path| >= 2 && path[|path| - 1] == path[0])
    ensures Get(rt, c, path[0]).r == Err(CircularReference(path[|path| - 1]))
    decreases |path|
  {
    var name := path[0];
    var last := path[|path| - 1];
    if |path| == 1 {
      assert Locked(c.services[name]);
      assert Vet(rt, name, c.services[name]) == Err(CircularReference(name));
    } else {
      var c1 := LockEntry(c, name);
      var tail := path[1..];
      assert tail[|tail| - 1] == last;
      forall i | 0 <= i < |tail| ensures Pending(rt, c1, tail[i]) {
        if tail[i] == name {
          assert Lookup(c1.services[name], CLASS_KEY) == Lookup(c.services[name], CLASS_KEY);
        }
      }
      forall i | 0 <= i < |tail| - 1
        ensures tail[i] in Unlocked(c1) && FirstArgument(c1, tail[i], tail[i + 1])
      {
        assert tail[i] == path[i + 1] && tail[i] != name;
      }
      DependencyCycleIsDetected(rt, c1, tail);
      var specs := ListOf(Lookup(c.services[name], ARGUMENT_KEY)).value;
      assert ResolveArgument(rt, c1, specs[0]).r == Err(CircularReference(last));
      assert ResolveArguments(rt, c1, specs).r == Err(CircularReference(last));
      GetUnfolds(rt, c, name);
      BuildUnfolds(rt, c, name, Vet(rt, name, c.services[name]).value);
    }
  }

  /** A build that failed after its definition was locked leaves the lock
      behind: every retry reports CircularReference and changes nothing. */
  lemma RetryAfterFailedBuildIsCircular(rt: Runtime, c: State, name: string)
    requires Pending(rt, c, name) && Get(rt, c, name).r.Err?
    ensures var c' := Get(rt, c, name).c;
            Get(rt, c', name) == Run(Err(CircularReference(name)), c')
  {
    var c' := Get(rt, c, name).c;
    var entry := c.services[name];
    if !Locked(entry) {
      assert Locked(c'.services[name]);
      assert c'.services[name] == Lock(entry);
      assert Lookup(c'.services[name], CLASS_KEY) == Lookup(entry, CLASS_KEY);
    }
  }

  /** Resolving a concatenation resolves the first part, then the second
      from the state the first left; the first failure ends resolution. */
  lemma {:induction false} ResolveArgumentsAppend(rt: Runtime, c: State, xs: seq<Value>, ys: seq<Value>)
    ensures ResolveArguments(rt, c, xs + ys) ==
              var first := ResolveArguments(rt, c, xs);
              match first.r
              case Err(e) => Run(Err(e), first.c)
              case Ok(vs) =>
                var second := ResolveArguments(rt, first.c, ys);
                match second.r
                case Err(e) => Run(Err(e), second.c)
                case Ok(ws) => Run(Ok(vs + ws), second.c)
    decreases |xs|
  {
    if xs == [] {
      assert xs + ys == ys;
      var second := ResolveArguments(rt, c, ys);
      if second.r.Ok? {
        assert [] + second.r.value == second.r.value;
      }
    } else {
      assert (xs + ys)[0] == xs[0];
      assert (xs + ys)[1..] == xs[1..] + ys;
      var head := ResolveArgument(rt, c, xs[0]);
      if head.r.Ok? {
        ResolveArgumentsAppend(rt, head.c, xs[1..], ys);
        var rest := ResolveArguments(rt, head.c, xs[1..]);
        if rest.r.Ok? {
          var second := ResolveArguments(rt, rest.c, ys);
          if second.r.Ok? {
            assert [head.r.value] + (rest.r.value + second.r.value)
                == ([head.r.value] + rest.r.value) + second.r.value;
          }
        }
      }
    }
  }

  /** One step of the argument loop. */
  lemma ResolveArgumentsCons(rt: Runtime, c: State, x: Value, xs: seq<Value>)
    ensures ResolveArguments(rt, c, [x] + xs) ==
              var first := ResolveArgument(rt, c, x);
              if first.r.Err? then Run(Err(first.r.error), first.c)
              else
                var rest := ResolveArguments(rt, first.c, xs);
                if rest.r.Err? then rest else Run(Ok([first.r.value] + rest.r.value), rest.c)
  {
    assert ([x] + xs)[0] == x && ([x] + xs)[1..] == xs;
  }

  /** A single argument resolves to what `ResolveArgument` gives it. */
  lemma ResolveArgumentsSingle(rt: Runtime, c: State, y: Value, w: Value, c2: State)
    requires ResolveArgument(rt, c, y) == Run(Ok(w), c2)
    ensures ResolveArguments(rt, c, [y]) == Run(Ok([w]), c2)
  {
    ResolveArgumentsCons(rt, c, y, []);
    assert [y] + [] == [y];
    assert [w] + [] == [w];
  }

  /** Two arguments resolve one after the other, the second in the state the
      first left behind. */
  lemma ResolveArgumentsPair(rt: Runtime, c: State, x: Value, y: Value, v: Value, w: Value, c1: State, c2: State)
    requires ResolveArgument(rt, c, x) == Run(Ok(v), c1)
    requires ResolveArgument(rt, c1, y) == Run(Ok(w), c2)
    ensures ResolveArguments(rt, c, [x, y]) == Run(Ok([v, w]), c2)
  {
    ResolveArgumentsSingle(rt, c1, y, w, c2);
    assert [x, y][1..] == [y];
    assert [v] + [w] == [v, w];
  }

  /** A service reference followed by a parameter reference: the service is
      fetched first and the parameter is read in the state that leaves. */
  lemma ServiceThenParameter(rt: Runtime, c: State, n: string, p: string, inst: Instance, c1: State, v: Value)
    requires Get(rt, c, n) == Run(Ok(inst), c1)
    requires GetParameter(c1, p) == Ok(v)
    ensures ResolveArguments(rt, c, [Ref(ServiceReference(n)), Ref(ParameterReference(p))]) == Run(Ok([Obj(inst), v]), c1)
  {
    ResolveArgumentsPair(rt, c, Ref(ServiceReference(n)), Ref(ParameterReference(p)), Obj(inst), v, c1, c1);
  }

  predicate NoServiceReference(spec: Value) {
    !(spec.Ref? && spec.ref.ServiceReference?)
  }

  /** An argument list without service references builds nothing and leaves
      the state alone; it resolves exactly when each of its parameter
      references does, and literals come back unchanged. */
  lemma {:induction false} ArgumentsWithoutServices(rt: Runtime, c: State, specs: seq<Value>)
    requires forall i | 0 <= i < |specs| :: NoServiceReference(specs[i])
    ensures ResolveArguments(rt, c, specs).c == c
    ensures ResolveArguments(rt, c, specs).r.Ok? <==>
              forall i | 0 <= i < |specs| :: specs[i].Ref? ==> GetParameter(c, specs[i].ref.name).Ok?
    ensures (forall i | 0 <= i < |specs| :: !specs[i].Ref?) ==> ResolveArguments(rt, c, specs).r == Ok(specs)
    decreases |specs|
  {
    if specs != [] {
      ArgumentsWithoutServices(rt, c, specs[1..]);
      var run := ResolveArguments(rt, c, specs);
      if run.r.Ok? {
        assert ResolvedAll(c, specs, run.r.value);
      }
      if forall i | 0 <= i < |specs| :: !specs[i].Ref? {
        assert forall i | 0 <= i < |specs[1..]| :: !specs[1..][i].Ref?;
        assert ResolveArgument(rt, c, specs[0]).r == Ok(specs[0]);
        assert specs == [specs[0]] + specs[1..];
      }
    }
  }

  /** A call entry that is not an array holding the method key fails with
      InvalidCall, and one whose method is not callable fails with
      UncallableMethod for that method; either way the build stops before
      the entry's arguments are resolved and nothing else happens. */
  lemma BadCallStopsBeforeArguments(rt: Runtime, c: State, name: string, inst: Instance, spec: Value, rest: seq<Value>)
    requires !IsArray(spec) || Lookup(spec, c.methodKey).None? || !Callable(rt, inst, Lookup(spec, c.methodKey).value)
    ensures InitializeService(rt, c, name, inst, [spec] + rest) ==
              Run(Err(if !IsArray(spec) || Lookup(spec, c.methodKey).None? then InvalidCall(name)
                      else UncallableMethod(name, Lookup(spec, c.methodKey).value)), c)
  {
  }

  /** A service without post-construction calls whose constructor
      arguments resolve is instantiated with them, logged and cached; a
      service without arguments is the special case of an empty list. */
  lemma GetWithoutCalls(rt: Runtime, c: State, name: string, specs: seq<Value>, vals: seq<Value>, c2: State)
    requires Pending(rt, c, name) && !Locked(c.services[name])
    requires ListOf(Lookup(c.services[name], ARGUMENT_KEY)) == Some(specs)
    requires Lookup(c.services[name], CALLS_KEY).None?
    requires ResolveArguments(rt, LockEntry(c, name), specs) == Run(Ok(vals), c2)
    ensures var inst := Instance(|c2.log|, Lookup(c.services[name], CLASS_KEY).value.s, vals, []);
            Get(rt, c, name) == Run(Ok(inst), c2.(log := c2.log + [name], store := c2.store[name := inst]))
  {
    var entry := c.services[name];
    GetUnfolds(rt, c, name);
    var cls := Vet(rt, name, entry).value;
    BuildUnfolds(rt, c, name, cls);
    var c1 := LockEntry(c, name);
    assert Lookup(c1.services[name], ARGUMENT_KEY) == Lookup(entry, ARGUMENT_KEY);
    assert Lookup(c1.services[name], CALLS_KEY) == Lookup(entry, CALLS_KEY);
    var c3 := Construct(c, c1, c2, name);
    var inst := Instance(|c2.log|, cls, vals, []);
    assert InitializeService(rt, c3, name, inst, []) == Run(Ok([]), c3);
    assert Finish(rt, c, c1, c2, name, cls, specs, vals) == Run(Ok(inst), c3);
    assert Build(rt, c, name, cls) == Run(Ok(inst), c3);
  }

  /** A definition that names only a class builds that class with no
      arguments and no calls, logs it and caches it under its name. */
  lemma ClassOnlyServiceBuilds(rt: Runtime, c: State, name: string, cls: string)
    requires name in c.services && c.services[name] == Dict(map[CLASS_KEY := Str(cls)])
    requires cls in rt.classes && name !in c.store
    ensures var inst := Instance(|c.log|, cls, [], []);
            Get(rt, c, name) == Run(Ok(inst), LockEntry(c, name).(log := c.log + [name], store := c.store[name := inst]))
  {
    var c2 := LockEntry(c, name);
    assert ResolveArguments(rt, c2, []) == Run(Ok([]), c2);
    GetWithoutCalls(rt, c, name, [], [], c2);
  }

  /** The definition keys are pairwise distinct, except that the method key
      as written is the argument key. */
  lemma DefinitionKeysDiffer()
    ensures CLASS_KEY != ARGUMENT_KEY && CLASS_KEY != CALLS_KEY && CLASS_KEY != LOCK_KEY
    ensures ARGUMENT_KEY != CALLS_KEY && ARGUMENT_KEY != LOCK_KEY && CALLS_KEY != LOCK_KEY
  {
    assert |CLASS_KEY| == |CALLS_KEY| == 5 && |LOCK_KEY| == 4 && |ARGUMENT_KEY| == 9;
    assert CLASS_KEY[2] != CALLS_KEY[2];
  }

  /** Two services that each take the other as their only constructor
      argument: asking for the first ends in CircularReference for it. */
  lemma MutualDependencyIsDetected(rt: Runtime, c: State, a: string, b: string, clsA: string, clsB: string)
    requires a != b && a in c.services && b in c.services && a !in c.store && b !in c.store
    requires c.services[a] == Dict(map[CLASS_KEY := Str(clsA), ARGUMENT_KEY := List([Ref(ServiceReference(b))])])
    requires c.services[b] == Dict(map[CLASS_KEY := Str(clsB), ARGUMENT_KEY := List([Ref(ServiceReference(a))])])
    requires clsA in rt.classes && clsB in rt.classes
    ensures Get(rt, c, a).r == Err(CircularReference(a))
  {
    PlainEntryLookups(clsA, [Ref(ServiceReference(b))]);
    PlainEntryLookups(clsB, [Ref(ServiceReference(a))]);
    var path := [a, b, a];
    assert forall i | 0 <= i < |path| :: Pending(rt, c, path[i]);
    assert forall i | 0 <= i < |path| - 1 :: path[i] in Unlocked(c) && FirstArgument(c, path[i], path[i + 1]);
    DependencyCycleIsDetected(rt, c, path);
  }

  /** What the lookups of a class-and-arguments definition give. */
  lemma PlainEntryLookups(cls: string, specs: seq<Value>)
    ensures var entry := Dict(map[CLASS_KEY := Str(cls), ARGUMENT_KEY := List(specs)]);
            && Lookup(entry, CLASS_KEY) == Some(Str(cls))
            && Lookup(entry, ARGUMENT_KEY) == Some(List(specs))
            && Lookup(entry, CALLS_KEY).None?
            && !Locked(entry)
  {
    DefinitionKeysDiffer();
  }

  /** A definition with a class and an argument list, and no calls, builds
      that class with the resolved arguments once they resolve. */
  lemma ServiceWithArgumentsBuilds(rt: Runtime, c: State, name: string, cls: string,
                                   specs: seq<Value>, vals: seq<Value>, c2: State)
    requires name in c.services && c.services[name] == Dict(map[CLASS_KEY := Str(cls), ARGUMENT_KEY := List(specs)])
    requires cls in rt.classes && name !in c.store
    requires ResolveArguments(rt, LockEntry(c, name), specs) == Run(Ok(vals), c2)
    ensures var inst := Instance(|c2.log|, cls, vals, []);
            Get(rt, c, name) == Run(Ok(inst), c2.(log := c2.log + [name], store := c2.store[name := inst]))
  {
    PlainEntryLookups(cls, specs);
    GetWithoutCalls(rt, c, name, specs, vals, c2);
  }

  /** The instantiation step: the build goes on to the calls, whose first
      error is the build's error. */
  lemma FinishUnfolds(rt: Runtime, c: State, c1: State, c2: State, name: string, cls: string,
                      argSpecs: seq<Value>, vals: seq<Value>)
    requires Has(c, name) && Vet(rt, name, c.services[name]) == Ok(cls)
    requires c1 == LockEntry(c, name) && Evolves(c1, c2) && (Valid(c1) ==> Valid(c2))
    requires ListOf(Lookup(c.services[name], ARGUMENT_KEY)) == Some(argSpecs)
    requires ResolvedAll(c2, argSpecs, vals)
    requires ListOf(Lookup(c.services[name], CALLS_KEY)).Some?
    ensures var calls := InitializeService(rt, Construct(c, c1, c2, name), name, Instance(|c2.log|, cls, vals, []),
                                           ListOf(Lookup(c.services[name], CALLS_KEY)).value);
            calls.r.Err? ==> Finish(rt, c, c1, c2, name, cls, argSpecs, vals).r == Err(calls.r.error)
  {
    assert Lookup(c1.services[name], CALLS_KEY) == Lookup(c.services[name], CALLS_KEY);
  }

  /** With calls read from 'method', a callable call entry whose first
      argument refers to a service that is locked and not cached fails with
      CircularReference for it. (As written, no call entry gets that far.) */
  lemma CallOnLockedServiceIsCircular(rt: Runtime, c: State, name: string, inst: Instance,
                                      spec: Value, rest: seq<Value>, target: string)
    requires c.methodKey == INTENDED_METHOD_KEY
    requires Pending(rt, c, target) && Locked(c.services[target])
    requires spec.Dict? && Lookup(spec, c.methodKey).Some? && Callable(rt, inst, Lookup(spec, c.methodKey).value)
    requires Lookup(spec, ARGUMENT_KEY).Some? && Lookup(spec, ARGUMENT_KEY).value.List?
    requires |Lookup(spec, ARGUMENT_KEY).value.items| > 0
    requires Lookup(spec, ARGUMENT_KEY).value.items[0] == Ref(ServiceReference(target))
    ensures InitializeService(rt, c, name, inst, [spec] + rest).r == Err(CircularReference(target))
  {
    var argSpecs := Lookup(spec, ARGUMENT_KEY).value.items;
    assert Vet(rt, target, c.services[target]) == Err(CircularReference(target));
    assert Get(rt, c, target) == Run(Err(CircularReference(target)), c);
    assert ResolveArgument(rt, c, argSpecs[0]).r == Err(CircularReference(target));
    assert ResolveArguments(rt, c, argSpecs).r == Err(CircularReference(target));
  }

  /** With calls read from 'method', a service whose first call entry takes
      the service itself as an argument cannot be built: the lock is still
      set while the calls run, because the cache is written only after
      construction returns. */
  lemma SelfReferenceInCallIsDetected(rt: Runtime, c: State, name: string, spec: Value, rest: seq<Value>)
    requires c.methodKey == INTENDED_METHOD_KEY
    requires Pending(rt, c, name) && !Locked(c.services[name])
    requires Lookup(c.services[name], ARGUMENT_KEY).None?
    requires Lookup(c.services[name], CALLS_KEY) == Some(List([spec] + rest))
    requires spec.Dict? && Lookup(spec, c.methodKey).Some?
    requires Lookup(spec, c.methodKey).value.Str?
    requires Lookup(c.services[name], CLASS_KEY).value.s in rt.methods
    requires Lookup(spec, c.methodKey).value.s in rt.methods[Lookup(c.services[name], CLASS_KEY).value.s]
    requires Lookup(spec, ARGUMENT_KEY).Some? && Lookup(spec, ARGUMENT_KEY).value.List?
    requires |Lookup(spec, ARGUMENT_KEY).value.items| > 0
    requires Lookup(spec, ARGUMENT_KEY).value.items[0] == Ref(ServiceReference(name))
    ensures Get(rt, c, name).r == Err(CircularReference(name))
  {
    var entry := c.services[name];
    GetUnfolds(rt, c, name);
    var cls := Vet(rt, name, entry).value;
    BuildUnfolds(rt, c, name, cls);
    var c1 := LockEntry(c, name);
    assert ResolveArguments(rt, c1, []) == Run(Ok([]), c1);
    FinishUnfolds(rt, c, c1, c1, name, cls, [], []);
    var c3 := Construct(c, c1, c1, name);
    var inst := Instance(|c1.log|, cls, [], []);
    assert Lookup(c3.services[name], CLASS_KEY) == Lookup(entry, CLASS_KEY);
    CallOnLockedServiceIsCircular(rt, c3, name, inst, spec, rest, name);
  }

  // ---- the method key ----

  /** As written, a call entry's method and its argument list come from the
      same key, so every post-construction call fails: a callable method
      name is a string, and a string argument list is a PHP type error. */
  lemma {:induction false} CallsAlwaysFailAsWritten(rt: Runtime, c: State, name: string, inst: Instance, specs: seq<Value>)
    requires c.methodKey == METHOD_KEY && |specs| > 0
    ensures InitializeService(rt, c, name, inst, specs).r.Err?
  {
    var spec := specs[0];
    var callee := Lookup(spec, c.methodKey);
    if IsArray(spec) && callee.Some? && Callable(rt, inst, callee.value) {
      assert ListOf(Lookup(spec, ARGUMENT_KEY)).None?;
    }
  }

  /** Hence, as written, no service with a post-construction call can ever
      be built. */
  lemma ServicesWithCallsNeverBuildAsWritten(rt: Runtime, c: State, name: string)
    requires c.methodKey == METHOD_KEY && Has(c, name) && name !in c.store
    requires ListOf(Lookup(c.services[name], CALLS_KEY)).Some?
    requires |ListOf(Lookup(c.services[name], CALLS_KEY)).value| > 0
    ensures Get(rt, c, name).r.Err?
  {
    var entry := c.services[name];
    match Vet(rt, name, entry)
    case Err(_) =>
    case Ok(cls) =>
      if ListOf(Lookup(entry, ARGUMENT_KEY)).Some? {
        BuildUnfolds(rt, c, name, cls);
        var c1 := LockEntry(c, name);
        var specs := ListOf(Lookup(entry, ARGUMENT_KEY)).value;
        var args := ResolveArguments(rt, c1, specs);
        if args.r.Ok? {
          FinishUnfolds(rt, c, c1, args.c, name, cls, specs, args.r.value);
          CallsAlwaysFailAsWritten(rt, Construct(c, c1, args.c, name), name,
                                   Instance(|args.c.log|, cls, args.r.value, []),
                                   ListOf(Lookup(entry, CALLS_KEY)).value);
        }
      } else {
        var c1 := LockEntry(c, name);
        assert Lookup(c1.services[name], ARGUMENT_KEY) == Lookup(entry, ARGUMENT_KEY);
      }
  }

  /** A call entry with a callable method and an argument list of literals. */
  ghost predicate PlainCall(rt: Runtime, c: State, inst: Instance, spec: Value) {
    && spec.Dict?
    && Lookup(spec, c.methodKey).Some?
    && Callable(rt, inst, Lookup(spec, c.methodKey).value)
    && ListOf(Lookup(spec, ARGUMENT_KEY)).Some?
    && forall j | 0 <= j < |ListOf(Lookup(spec, ARGUMENT_KEY)).value| :: !ListOf(Lookup(spec, ARGUMENT_KEY)).value[j].Ref?
  }

  /** With call entries read from 'method', plain calls are all made, in
      their declared order, with their own arguments, and nothing else
      changes. */
  lemma {:induction false} CallsRunInOrder(rt: Runtime, c: State, name: string, inst: Instance, specs: seq<Value>)
    requires c.methodKey == INTENDED_METHOD_KEY
    requires forall i | 0 <= i < |specs| :: PlainCall(rt, c, inst, specs[i])
    ensures var run := InitializeService(rt, c, name, inst, specs);
            && run.c == c
            && run.r.Ok?
            && |run.r.value| == |specs|
            && forall i | 0 <= i < |specs| ::
                 && Lookup(specs[i], INTENDED_METHOD_KEY) == Some(Str(run.r.value[i].methodName))
                 && ListOf(Lookup(specs[i], ARGUMENT_KEY)) == Some(run.r.value[i].args)
    decreases |specs|
  {
    if specs != [] {
      var argSpecs := ListOf(Lookup(specs[0], ARGUMENT_KEY)).value;
      ArgumentsWithoutServices(rt, c, argSpecs);
      CallsRunInOrder(rt, c, name, inst, specs[1..]);
    }
  }
}

=== FILE: references.dfy ===
/** The two reference value objects that may appear in an argument list
    (src/Reference/ServiceReference.php, src/Reference/ParameterReference.php).
    Both carry one name and have no behaviour; the abstract base class only
    supplies the name accessor. */
module References {

  datatype Reference =
    | ServiceReference(name: string)   // resolve `name` as a service
    | ParameterReference(name: string) // resolve `name` as a dotted parameter path
}

=== FILE: scenarios.dfy ===
/** Concrete containers: the parameter example, an unknown service, a
    two-service cycle, the logger/app wiring, and the method-key defect. */
module Scenarios {
  import opened Wrappers
  import opened References
  import opened Values
  import opened Errors
  import opened Paths
  import opened Container
  import opened ContainerProperties

  const DbParameters: map<string, Value> :=
    map["db" := Dict(map["host" := Str("localhost"), "port" := Int(5432)])]

  const ServerParameters: map<string, Value> :=
    map["servers" := List([Str("alpha"), Str("beta")])]

  /** A two-segment path `a.b` reads entry `b` of the top-level parameter `a`. */
  lemma TwoLevelParameter(c: State, a: string, b: string, p: string)
    requires NoSeparator(a) && NoSeparator(b) && p == a + [SEPARATOR] + b
    requires a in c.parameters && c.parameters[a] != Null
    ensures GetParameter(c, p) ==
              match Lookup(c.parameters[a], b)
              case Some(v) => Ok(v)
              case None => Err(ParameterNotFound(p))
    ensures HasParameter(c, p) <==> Lookup(c.parameters[a], b).Some?
  {
    Parameters.ResolveTop(Dict(c.parameters), a);
    Parameters.ResolveChild(Dict(c.parameters), a, b);
    Parameters.HasIffResolves(Dict(c.parameters), p);
  }

  /** `getParameter("db.host")` and `getParameter("db.port")` descend two levels. */
  lemma NestedParameterFound(c: State)
    requires c.parameters == DbParameters
    ensures GetParameter(c, "db.host") == Ok(Str("localhost"))
    ensures GetParameter(c, "db.port") == Ok(Int(5432))
  {
    DbEntries();
    assert "db.host" == "db" + [SEPARATOR] + "host";
    assert "db.port" == "db" + [SEPARATOR] + "port";
    TwoLevelParameter(c, "db", "host", "db.host");
    TwoLevelParameter(c, "db", "port", "db.port");
  }

  /** A missing last segment is ParameterNotFound, and `hasParameter` says no. */
  lemma NestedParameterMissing(c: State)
    requires c.parameters == DbParameters
    ensures GetParameter(c, "db.missing") == Err(ParameterNotFound("db.missing"))
    ensures !HasParameter(c, "db.missing")
  {
    DbEntries();
    assert "db.missing" == "db" + [SEPARATOR] + "missing";
    TwoLevelParameter(c, "db", "missing", "db.missing");
  }

  /** The `db` dictionary binds `host` and `port`, and nothing under `missing`. */
  lemma DbEntries()
    ensures Lookup(DbParameters["db"], "host") == Some(Str("localhost"))
    ensures Lookup(DbParameters["db"], "port") == Some(Int(5432))
    ensures Lookup(DbParameters["db"], "missing") == None
  {
    assert "missing" != "host" && "missing" != "port";
  }

  /** A numeric segment indexes a list. */
  lemma ListParameterFound(c: State)
    requires c.parameters == ServerParameters
    ensures GetParameter(c, "servers.1") == Ok(Str("beta"))
  {
    SecondServer();
    assert "servers.1" == "servers" + [SEPARATOR] + "1";
    TwoLevelParameter(c, "servers", "1", "servers.1");
  }

  /** Key "1" finds the second server. */
  lemma SecondServer()
    ensures Lookup(ServerParameters["servers"], "1") == Some(Str("beta"))
  {
    IntegerKeyOfKeyOf(1);
    assert IntegerKey("1") == Some(1);
  }

  /** A name without definition is not there, and asking for it changes nothing. */
  lemma UnknownService(rt: Runtime)
    ensures !Has(New(map[], map[]), "ghost")
    ensures Get(rt, New(map[], map[]), "ghost") == Run(Err(ServiceNotFound("ghost")), New(map[], map[]))
  {
  }

  const CycleServices: map<string, Value> :=
    map["a" := Dict(map["class" := Str("A"), "arguments" := List([Ref(ServiceReference("b"))])]),
        "b" := Dict(map["class" := Str("B"), "arguments" := List([Ref(ServiceReference("a"))])])]

  /** `a` needs `b` and `b` needs `a`: asking for `a` ends in
      CircularReference for `a`. */
  lemma TwoServiceCycle()
    ensures Get(Runtime({"A", "B"}, map[]), New(CycleServices, map[]), "a").r == Err(CircularReference("a"))
  {
    MutualDependencyIsDetected(Runtime({"A", "B"}, map[]), New(CycleServices, map[]), "a", "b", "A", "B");
  }

  const LoggerEntry: Value :=
    Dict(map["class" := Str("Logger")])

  const AppArguments: seq<Value> :=
    [Ref(ServiceReference("logger")), Ref(ParameterReference("env.name"))]

  const AppEntry: Value :=
    Dict(map["class" := Str("App"), "arguments" := List(AppArguments)])

  const AppServices: map<string, Value> :=
    map["logger" := LoggerEntry, "app" := AppEntry]

  const AppParameters: map<string, Value> :=
    map["env" := Dict(map["name" := Str("prod")])]

  const AppRuntime: Runtime :=
    Runtime({"Logger", "App"}, map[])

  const LoggerInstance: Instance :=
    Instance(0, "Logger", [], [])

  const AppInstance: Instance :=
    Instance(1, "App", [Obj(LoggerInstance), Str("prod")], [])

  lemma EnvNameParameter(c: State)
    requires c.parameters == AppParameters
    ensures GetParameter(c, "env.name") == Ok(Str("prod"))
  {
    TwoLevelParameter(c, "env", "name", "env.name");
  }

  /** Resolving the arguments of `app` builds `logger` first, with no
      arguments, caches it, then reads the parameter. */
  lemma AppArgumentsResolve(rt: Runtime, c1: State)
    requires "Logger" in rt.classes
    requires "logger" in c1.services && c1.services["logger"] == LoggerEntry && "logger" !in c1.store
    requires c1.parameters == AppParameters
    ensures var logger := Instance(|c1.log|, "Logger", [], []);
            ResolveArguments(rt, c1, AppArguments) ==
              Run(Ok([Obj(logger), Str("prod")]),
                  LockEntry(c1, "logger").(log := c1.log + ["logger"], store := c1.store["logger" := logger]))
  {
    ClassOnlyServiceBuilds(rt, c1, "logger", "Logger");
    var logger := Instance(|c1.log|, "Logger", [], []);
    var c4 := LockEntry(c1, "logger").(log := c1.log + ["logger"], store := c1.store["logger" := logger]);
    EnvNameParameter(c4);
    ServiceThenParameter(rt, c1, "logger", "env.name", logger, c4, Str("prod"));
  }

  /** The first `get("app")` on a container holding only the logger/app
      wiring builds `logger` (no arguments) before `App(logger, "prod")`,
      and caches both. */
  lemma AppBuilds(c: State)
    requires c.services == AppServices && c.parameters == AppParameters
    requires c.store == map[] && c.log == []
    ensures var run := Get(AppRuntime, c, "app");
            && run.r == Ok(AppInstance)
            && run.c.log == ["logger", "app"]
            && run.c.store == map["logger" := LoggerInstance, "app" := AppInstance]
  {
    var rt := AppRuntime;
    var c1 := LockEntry(c, "app");
    AppArgumentsResolve(rt, c1);
    var c4 := LockEntry(c1, "logger").(log := ["logger"], store := map["logger" := LoggerInstance]);
    ServiceWithArgumentsBuilds(rt, c, "app", "App", AppArguments, [Obj(LoggerInstance), Str("prod")], c4);
  }

  /** On the fresh container, a second `get("app")` returns the instance the
      first one built, without building anything. */
  lemma EndToEnd()
    ensures var run := Get(AppRuntime, New(AppServices, AppParameters), "app");
            && run.r == Ok(AppInstance)
            && Get(AppRuntime, run.c, "app") == Run(Ok(AppInstance), run.c)
  {
    AppBuilds(New(AppServices, AppParameters));
    SecondGetIsCached(AppRuntime, New(AppServices, AppParameters), "app");
  }

  /** A call entry written the way the source's error message asks for:
      method `setLevel` with the argument "debug". */
  const LevelCall: Value :=
    Dict(map["method" := Str("setLevel"), "arguments" := List([Str("debug")])])

  const LevelRuntime: Runtime :=
    Runtime({"Logger"}, map["Logger" := {"setLevel"}])

  /** As written, the method is read from 'arguments': the argument list
      itself is taken for the method name, and the call is refused as
      uncallable before anything else happens. */
  lemma LevelCallRefusedAsWritten(c: State, inst: Instance)
    requires c.methodKey == METHOD_KEY && inst.className == "Logger"
    ensures InitializeService(LevelRuntime, c, "logger", inst, [LevelCall])
              == Run(Err(UncallableMethod("logger", List([Str("debug")]))), c)
  {
    assert Lookup(LevelCall, METHOD_KEY) == Some(List([Str("debug")]));
  }

  /** Read from 'method', the same entry calls `setLevel("debug")`. */
  lemma LevelCallMadeWhenCorrected(c: State, inst: Instance)
    requires c.methodKey == INTENDED_METHOD_KEY && inst.className == "Logger"
    ensures InitializeService(LevelRuntime, c, "logger", inst, [LevelCall])
              == Run(Ok([Call("setLevel", [Str("debug")])]), c)
  {
    assert Lookup(LevelCall, INTENDED_METHOD_KEY) == Some(Str("setLevel"));
    assert ListOf(Lookup(LevelCall, ARGUMENT_KEY)) == Some([Str("debug")]);
    CallsRunInOrder(LevelRuntime, c, "logger", inst, [LevelCall]);
    var run := InitializeService(LevelRuntime, c, "logger", inst, [LevelCall]);
    assert run.r.value[0] == Call("setLevel", [Str("debug")]);
    assert run.r.value == [Call("setLevel", [Str("debug")])];
  }
}

=== FILE: values.dfy ===
/** PHP values as the container sees them: definitions, parameter trees,
    argument lists and built instances are all values of this one type. */
module Values {
  import opened Wrappers
  import opened References

  /** One recorded post-construction method call. */
  datatype Call = Call(methodName: string, args: seq<Value>)

  /** An object built by the container. `id` is its position in the
      container's construction log, which stands in for object identity. */
  datatype Instance = Instance(id: nat, className: string, ctorArgs: seq<Value>, calls: seq<Call>)

  /** A PHP array is either a list (integer keys 0..n-1, in order) or a
      string-keyed dictionary; a dictionary's integer keys are written as
      their decimal strings. */
  datatype Value =
    | Null
    | Bool(b: bool)
    | Int(i: int)
    | Str(s: string)
    | List(items: seq<Value>)
    | Dict(entries: map<string, Value>)
    | Ref(ref: Reference)
    | Obj(obj: Instance)

  /** PHP `is_array`. */
  predicate IsArray(v: Value) {
    v.List? || v.Dict?
  }

  predicate IsDigit(ch: char) {
    '0' <= ch <= '9'
  }

  predicate AllDigits(s: string) {
    forall i | 0 <= i < |s| :: IsDigit(s[i])
  }

  function DigitsValue(s: string): nat
    requires AllDigits(s)
  {
    if |s| == 0 then 0 else DigitsValue(s[..|s| - 1]) * 10 + (s[|s| - 1] as int - '0' as int)
  }

  /** PHP stores a string key that is a canonical non-negative decimal
      ("0", "7", "42" but not "007" or "") as an integer key. */
  function IntegerKey(key: string): Option<nat> {
    if |key| > 0 && AllDigits(key) && (key[0] != '0' || |key| == 1) then Some(DigitsValue(key)) else None
  }

  /** The decimal rendering of a list index. */
  function KeyOf(i: nat): (s: string)
    ensures |s| > 0 && AllDigits(s)
  {
    var d := [(('0' as int) + i % 10) as char];
    if i < 10 then d else KeyOf(i / 10) + d
  }

  /** The only string that addresses list position `i` is its decimal rendering. */
  lemma {:induction false} IntegerKeyOfKeyOf(i: nat)
    ensures IntegerKey(KeyOf(i)) == Some(i)
  {
    var s := KeyOf(i);
    if i < 10 {
      assert DigitsValue(s) == DigitsValue(s[..0]) * 10 + i;
    } else {
      IntegerKeyOfKeyOf(i / 10);
      var p := KeyOf(i / 10);
      assert s[..|s| - 1] == p;
      assert DigitsValue(s) == (i / 10) * 10 + i % 10;
      assert s[0] == p[0];
    }
  }

  lemma {:induction false} LeadingDigitPositive(s: string)
    requires |s| > 0 && AllDigits(s) && s[0] != '0'
    ensures DigitsValue(s) > 0
  {
    if |s| > 1 {
      var p := s[..|s| - 1];
      assert p[0] == s[0];
      LeadingDigitPositive(p);
    }
  }

  lemma {:induction false} KeyOfIntegerKey(key: string)
    requires IntegerKey(key).Some?
    ensures KeyOf(IntegerKey(key).value) == key
  {
    var v := DigitsValue(key);
    if |key| == 1 {
      assert key[..|key| - 1] == [];
      assert DigitsValue([]) == 0;
      assert v == key[0] as int - '0' as int;
      assert KeyOf(v) == [key[0]];
    } else {
      var p := key[..|key| - 1];
      assert p[0] == key[0];
      assert AllDigits(p);
      LeadingDigitPositive(p);
      KeyOfIntegerKey(p);
      var d := key[|key| - 1] as int - '0' as int;
      assert v == DigitsValue(p) * 10 + d;
      assert v / 10 == DigitsValue(p) && v % 10 == d;
      assert key == p + [key[|key| - 1]];
    }
  }

  /** PHP `isset($v[$key]) ? $v[$key] : <absent>`: a key bound to null counts
      as absent, and anything but an array has no entries. */
  function Lookup(v: Value, key: string): (r: Option<Value>)
    ensures r.Some? ==> IsArray(v) && r.value != Null
    ensures v.Dict? ==> (r.Some? <==> key in v.entries && v.entries[key] != Null)
    ensures v.Dict? && r.Some? ==> r.value == v.entries[key]
  {
    match v
    case Dict(m) => if key in m && m[key] != Null then Some(m[key]) else None
    case List(xs) =>
      var i := IntegerKey(key);
      if i.Some? && i.value < |xs| && xs[i.value] != Null then Some(xs[i.value]) else None
    case _ => None
  }

  /** A key finds an entry of a list exactly when it is the decimal
      rendering of a position holding a non-null item, and then it finds
      that item. */
  lemma ListLookup(xs: seq<Value>, key: string)
    ensures Lookup(List(xs), key).Some? <==> exists i :: 0 <= i < |xs| && xs[i] != Null && key == KeyOf(i)
    ensures forall i :: 0 <= i < |xs| && key == KeyOf(i) ==>
              Lookup(List(xs), key) == (if xs[i] != Null then Some(xs[i]) else None)
  {
    forall i | 0 <= i < |xs| && key == KeyOf(i)
      ensures Lookup(List(xs), key) == (if xs[i] != Null then Some(xs[i]) else None)
    {
      IntegerKeyOfKeyOf(i);
    }
    if Lookup(List(xs), key).Some? {
      KeyOfIntegerKey(key);
      var i := IntegerKey(key).value;
      assert 0 <= i < |xs| && xs[i] != Null && key == KeyOf(i);
    }
  }

  /** The items of a value used where the source iterates an array
      (`foreach` over an `array` parameter); an absent value stands for the
      empty list, and `None` means a PHP type error. */
  function ListOf(slot: Option<Value>): Option<seq<Value>> {
    match slot
    case None => Some([])
    case Some(List(xs)) => Some(xs)
    case Some(_) => None
  }
}

=== FILE: wrappers.dfy ===
/** Failure-carrying return types used throughout the model. */
module Wrappers {

  /** A value that may be absent. */
  datatype Option<+T> = None | Some(value: T)

  /** Either a computed value or the error that aborted the computation;
      the model's stand-in for a PHP return value or a thrown exception. */
  datatype Result<+T, +E> = Ok(value: T) | Err(error: E)
}
